=== FILE: README.md ===
# Formatting, validation and list filters of a CNPJ client-management app

This Dafny project models the pure logic of a small Brazilian client- and
agreement-management web application, and proves properties of that model:

- the input masks for the company tax identifier (CNPJ, `DD.DDD.DDD/DDDD-DD`),
  phone numbers (`(DD) DDDDD-DDDD`) and postal codes (CEP, `DDDDD-DDD`), and
  the CNPJ unmask and display functions (`src/lib/formatters.ts`);
- the CNPJ check-digit validator, with its modulo-11 weighted sums;
- the client list's status filter and free-text search, and its status badge
  colour (`src/pages/Clientes/Clientes.tsx`);
- the agreement list's status filter and its status colour and label
  (`src/pages/Acordo/Acordo.tsx`);
- the avatar initials in the navigation bar (`src/components/layout/Navbar.tsx`).

Strings are `seq<char>`. `replace(/\D/g, '')` keeps the ASCII digits `0`-`9`
(`Text.Digits`). `toLowerCase` and `toUpperCase` are ASCII case mappings.
`includes` is a start-by-start prefix search (`Text.Includes`). JavaScript's
`slice` clamps its bounds to the string length (`Formatters.Slice`), so 13
digits mask to `DD.DDD.DDD/DDDD-D` (`FormatterProofs.ThirteenDigitsCNPJ`).

Modules, one per file:

- `Wrappers`: `Option`, used for data that may be absent.
- `Seqs`: `Take`, `Filter` and the subsequence order.
- `Text`: digits, ASCII case and substring search.
- `Formatters`: the masks, written tier by tier as in the source.
- `FormatterProofs`: a digit-by-digit reference layout for the CNPJ, and the
  mask properties.
- `CnpjValidation`: `validateCNPJ` as a method that mirrors the source loops.
  A reference predicate `IsValidCNPJ` states validity, and `CompleteCNPJ`
  computes the check digits.
- `Clientes`, `Acordos`, `Navbar`: the page-level functions.

In `validateCNPJ` the loop keeps a running `weight` that starts at 5 or 6,
steps down by one and wraps from 2 to 9. The method `CnpjValidation.ValidateCNPJ`
keeps that running weight. The reference definition (`IsValidCNPJ`,
`WeightedSum`) uses the closed form `Weight(n, i) = 2 + (n - 1 - i) % 8`
instead. The loop invariant ties the running weight to the closed form, and
`CnpjValidation.WeightStep` proves that the closed form follows the loop's
update rule.

The model keeps one behaviour as written. A name made only of spaces is not
empty, so it gets no "U" fallback, and it has no word starts, so its avatar
initials are empty (`Navbar.BlankNameExample`).

## Model

| member | source | states |
|---|---|---|
| Seqs.Filter | src/pages/Clientes/Clientes.tsx:54 | `Array.prototype.filter`: the result is no longer than the input. Its partners state the rest |
| Seqs.FilterIsSubsequence | src/pages/Clientes/Clientes.tsx:54 | `filter` keeps the kept elements in their original order: the result is a subsequence of the input |
| Seqs.FilterCount | src/pages/Acordo/Acordo.tsx:40 | `filter` keeps every copy of a kept element: each element occurs in the result as often as in the input when it passes the test, and not at all otherwise |
| Text.Lower | src/pages/Clientes/Clientes.tsx:55-60 | `toLowerCase` on ASCII: the length is kept, no upper-case letter remains, each upper-case letter becomes the lower-case letter that upper-cases back to it, and every other character is kept |
| Text.Upper | src/components/layout/Navbar.tsx:23 | `toUpperCase` on ASCII: the length is kept, no lower-case letter remains, each lower-case letter becomes the upper-case letter that lower-cases back to it, and every other character is kept |
| Formatters.Slice | src/lib/formatters.ts:8-12 | `slice(a, b)` on a string of length n: when a < b and a < n the result has min(b, n) - a characters, otherwise none, and its i-th character is the input's (a + i)-th |
| Formatters.SliceFrom | src/lib/formatters.ts:8-10 | `slice(a)`: everything from index a to the end, and the empty string when a is past the end |
| Formatters.SliceClampsEnd | src/lib/formatters.ts:12 | an end index past the string clamps: `slice(a, b)` with b at or past the length equals `slice(a)` |
| Formatters.MaskCNPJ | src/lib/formatters.ts:4-13 | the result is at most 18 characters. With 2 digits or fewer it is those digits. With 14 or more digits it has 18 characters, with `.` at 2 and 6, `/` at 10 and `-` at 15 |
| Formatters.UnmaskCNPJ | src/lib/formatters.ts:15-17 | the result has only ASCII digits. It is a subsequence of the input and holds every digit of the input as often as the input does |
| Formatters.FormatCNPJ | src/lib/formatters.ts:19-21 | formatCNPJ is maskCNPJ, so every maskCNPJ property below carries over |
| Formatters.MaskPhone | src/lib/formatters.ts:23-31 | the result is at most 15 characters. 2 digits or fewer come back unchanged. 3-6 digits gain `(`, `)` and a space. 7-10 digits also gain a dash at 9. From 11 digits it is exactly 15 characters with the dash at 10 |
| Formatters.FormatPhone | src/lib/formatters.ts:33-35 | formatPhone is maskPhone |
| Formatters.MaskCEP | src/lib/formatters.ts:37-43 | the result is at most 9 characters. 5 digits or fewer come back unchanged. From 6 digits on, the result is the first min(n, 8) digits with a dash inserted at index 5: min(n, 8) + 1 characters with `-` at 5 |
| Formatters.FormatCEP | src/lib/formatters.ts:45-47 | formatCEP is maskCEP |
| FormatterProofs.CnpjLayoutIsRender | src/lib/formatters.ts:7-12 | the five length tiers of maskCNPJ equal one independent layout of the first 14 digits: each digit in turn, preceded by `.` at indices 2 and 5, `/` at 8 and `-` at 12 |
| FormatterProofs.ThirteenDigitsCNPJ | src/lib/formatters.ts:12 | 13 digits are laid out as `DD.DDD.DDD/DDDD-D`: the group after the dash holds the one remaining digit |
| FormatterProofs.MaskCNPJDigits | src/lib/formatters.ts:4-13 | the digits of the masked value are exactly the first 14 digits of the input, in order |
| FormatterProofs.UnmaskCNPJIdempotent | src/lib/formatters.ts:15-17 | unmasking an already unmasked value changes nothing |
| FormatterProofs.UnmaskMaskCNPJ | src/lib/formatters.ts:4-17 | unmaskCNPJ(maskCNPJ(s)) is the first 14 digits of unmaskCNPJ(s) |
| FormatterProofs.RawCNPJRoundTrip | src/lib/formatters.ts:4-17 | a stored 14-digit identifier comes back unchanged after masking and unmasking |
| FormatterProofs.MaskCNPJIdempotent | src/lib/formatters.ts:4-13 | masking an already masked value changes nothing |
| FormatterProofs.MaskUnmaskCNPJ | src/lib/formatters.ts:4-17 | masking the unmasked display form gives the display form back |
| FormatterProofs.MaskCNPJPrefix | src/lib/formatters.ts:7-12 | for every input and every prefix of it, the mask of the prefix is a prefix of the mask. Separators never move while a value is typed |
| FormatterProofs.MaskPhoneDigits | src/lib/formatters.ts:23-31 | the digits of the masked phone number are exactly the first 11 digits of the input |
| FormatterProofs.MaskPhoneIdempotent | src/lib/formatters.ts:23-31 | masking an already masked phone number changes nothing |
| FormatterProofs.MaskCEPDigits | src/lib/formatters.ts:37-43 | the digits of the masked postal code are exactly the first 8 digits of the input |
| FormatterProofs.MaskCEPIdempotent | src/lib/formatters.ts:37-43 | masking an already masked postal code changes nothing |
| FormatterProofs.MaskCEPPrefix | src/lib/formatters.ts:40-42 | the mask of a prefix of the input is a prefix of the mask |
| FormatterProofs.MaskPhoneMobileExample | src/lib/formatters.ts:30 | `11987654321` masks to `(11) 98765-4321` |
| FormatterProofs.MaskPhoneLandlineExample | src/lib/formatters.ts:28 | `1133334444` masks to `(11) 3333-4444` |
| FormatterProofs.MaskCEPExample | src/lib/formatters.ts:42 | `01310100` masks to `01310-100` |
| FormatterProofs.MaskCNPJExample | src/lib/formatters.ts:12 | `11222333000181` masks to `11.222.333/0001-81` |
| CnpjValidation.RepeatedDigitIff | src/lib/formatters.ts:55 | `/^(\d)\1+$/` matches exactly the strings of at least two characters that are one digit repeated throughout |
| CnpjValidation.CheckWeights | src/lib/formatters.ts:58-75 | the closed-form weights of the two loops are 5,4,3,2,9,8,7,6,5,4,3,2 and 6,5,4,3,2,9,8,7,6,5,4,3,2 |
| CnpjValidation.ValidateCNPJ | src/lib/formatters.ts:49-79 | the loop-based validator returns exactly the reference validity of its input. It rejects every input whose digit count is not 14, and every repetition of one digit |
| CnpjValidation.WeightStep | src/lib/formatters.ts:61-64 | the closed-form weight follows the loop's update rule: one lower at each step, and 9 after 2 |
| CnpjValidation.CheckDigit | src/lib/formatters.ts:66 | the check digit is between 0 and 9. Adding it to the sum gives a multiple of 11, except when the remainder is 1, where the digit is 0 |
| CnpjValidation.ValidateIgnoresFormatting | src/lib/formatters.ts:50 | validity depends only on the digits, so validating the unmasked value gives the same verdict |
| CnpjValidation.ValidateAfterMask | src/lib/formatters.ts:49-52 | masking a 14-digit identifier for display does not change its validity |
| CnpjValidation.CompleteCNPJ | src/lib/formatters.ts:57-78 | appending the two computed check digits to twelve base digits gives a 14-digit string that passes both checks |
| CnpjValidation.ChecksumIsCompletion | src/lib/formatters.ts:57-78 | a 14-digit string passes both checks exactly when it is the completion of its first twelve digits |
| CnpjValidation.CheckDigitAgrees | src/lib/formatters.ts:57-78 | a digit that equals the check digit of the digits before it is determined by them: two strings agreeing on that prefix and both satisfying the check agree on one more digit |
| CnpjValidation.SameCheckDigits | src/lib/formatters.ts:66-78 | two 14-digit strings that share their first twelve digits and both pass both checks are equal |
| CnpjValidation.CompletionIsValid | src/lib/formatters.ts:49-79 | the completion of twelve base digits is valid exactly when it is not one repeated digit |
| CnpjValidation.ZerosPassChecksum | src/lib/formatters.ts:54-55 | fourteen zeros pass both check-digit equations, so only the repeated-digit test rejects them |
| CnpjValidation.ExampleChecksum | src/lib/formatters.ts:57-78 | the digits `11222333000181` pass both checks (weighted sums 102 and 120) and are not a repetition |
| CnpjValidation.ValidExample | src/lib/formatters.ts:49-79 | `11.222.333/0001-81` is valid |
| Text.LowerEqualIff | src/pages/Clientes/Clientes.tsx:55 | two lower-cased strings are equal exactly when the originals agree letter by letter up to ASCII case |
| Text.Includes | src/pages/Clientes/Clientes.tsx:57-60 | `includes`: an empty needle is always found, a needle that is a prefix of the haystack is found, and a found needle is no longer than the haystack. Its partner `Text.IncludesIffOccurs` states it in full |
| Text.IncludesIffOccurs | src/pages/Clientes/Clientes.tsx:59 | `includes` succeeds exactly when the needle occurs at some position of the haystack |
| Text.IncludesLowerIff | src/pages/Clientes/Clientes.tsx:57-60 | `includes` on lower-cased strings succeeds exactly when the needle occurs somewhere ignoring ASCII case |
| Clientes.FilterClients | src/pages/Clientes/Clientes.tsx:54-63 | the listed clients are a subsequence of the loaded ones, and a client is listed exactly when it was loaded and passes both the status test and the search. A listed client appears as many times as it was loaded |
| Clientes.ClientesFiltrados | src/pages/Clientes/Clientes.tsx:54 | with no loaded data there is no list. With data, the list is a subsequence of it and holds exactly the clients that pass both tests, each as many times as it was loaded |
| Clientes.MatchesFiltroIff | src/pages/Clientes/Clientes.tsx:55 | the status test passes exactly for "todos" or a status equal to the filter up to ASCII case |
| Clientes.MatchesBuscaIff | src/pages/Clientes/Clientes.tsx:56-60 | the search passes exactly when it is empty, or occurs ignoring case in the company name, trade name or contact name, or verbatim in the CNPJ |
| Clientes.InitialStateShowsAll | src/pages/Clientes/Clientes.tsx:33-63 | with the initial "todos" and an empty search, every loaded client is listed in order |
| Clientes.FilterClientsIdempotent | src/pages/Clientes/Clientes.tsx:54-63 | filtering the listed clients again with the same values changes nothing |
| Clientes.FormattedSearchMissesCnpj | src/pages/Clientes/Clientes.tsx:59 | a search containing a non-digit never matches a digits-only CNPJ. The client form stores CNPJs unmasked, so such a search finds a client only by its names |
| Clientes.StatusColor | src/pages/Clientes/Clientes.tsx:94-105 | the colour is one of the four badge classes |
| Clientes.StatusColorCases | src/pages/Clientes/Clientes.tsx:94-105 | green, gray and red are given exactly to "ativo", "inativo" and "suspenso" up to ASCII case. Blue is given exactly to every other status |
| Clientes.StatusColorIgnoresCase | src/pages/Clientes/Clientes.tsx:95 | upper-casing the status does not change its colour |
| Acordos.FilterAcordos | src/pages/Acordo/Acordo.tsx:40-43 | the listed agreements are a subsequence of the loaded ones, and an agreement is listed exactly when the filter is "todos" or equals its status. A kept agreement appears as many times as it was loaded |
| Acordos.AcordosFiltrados | src/pages/Acordo/Acordo.tsx:40 | with no loaded data there is no list. With data, the list is a subsequence of it and holds exactly the agreements the filter keeps, each as many times as it was loaded |
| Acordos.AllStatusesShowsAll | src/pages/Acordo/Acordo.tsx:41 | "todos" lists the loaded agreements unchanged |
| Acordos.FilterAcordosIdempotent | src/pages/Acordo/Acordo.tsx:40-43 | filtering twice with the same value equals filtering once |
| Acordos.FilterIsCaseSensitive | src/pages/Acordo/Acordo.tsx:42 | an agreement whose status is "Concluido" is not listed under the filter "concluido" |
| Acordos.StatusColor | src/pages/Acordo/Acordo.tsx:45-58 | the colour is one of the five badge classes |
| Acordos.StatusColorCases | src/pages/Acordo/Acordo.tsx:45-58 | each of the four codes has its own colour. Gray is given exactly to statuses that are not one of the four codes |
| Acordos.StatusText | src/pages/Acordo/Acordo.tsx:60-73 | each of the four codes gets a label that starts with a capital letter. `Acordos.StatusTextLabels` gives each code's label |
| Acordos.StatusTextLabels | src/pages/Acordo/Acordo.tsx:61-69 | "em_andamento" reads "Em andamento", "concluido" reads "Concluído", "aguardando" reads "Aguardando" and "cancelado" reads "Cancelado" |
| Acordos.StatusTextEchoesUnknown | src/pages/Acordo/Acordo.tsx:60-73 | the label equals the status exactly when the status is not one of the four codes |
| Acordos.StatusTextDistinguishesKnown | src/pages/Acordo/Acordo.tsx:61-69 | the four codes get four different labels |
| Acordos.StatusTextCanCoincide | src/pages/Acordo/Acordo.tsx:60-73 | an unknown status "Cancelado" gets the same label as the code "cancelado", but a gray badge instead of a red one |
| Navbar.Split | src/components/layout/Navbar.tsx:20 | `split(" ")` always gives at least one piece |
| Navbar.SplitCount | src/components/layout/Navbar.tsx:20 | `split(" ")` gives one more piece than the name has spaces |
| Navbar.SplitJoin | src/components/layout/Navbar.tsx:20 | no piece of `split(" ")` contains a space, and joining the pieces with single spaces gives the name back |
| Navbar.FirstChars | src/components/layout/Navbar.tsx:21-22 | `.map(n => n[0]).join("")`: at most one character per piece. When every piece is non-empty it is exactly the first character of each piece, and when every piece is empty it is empty |
| Navbar.FirstCharsOfSplit | src/components/layout/Navbar.tsx:20-22 | the first characters of the split pieces, with empty pieces contributing nothing, are exactly the characters that start a word |
| Navbar.GetInitials | src/components/layout/Navbar.tsx:17-25 | the initials have at most two characters and no lower-case ASCII letter. They are "U" when the profile or its name is missing or empty |
| Navbar.InitialsAreWordStarts | src/components/layout/Navbar.tsx:19-24 | for a non-empty name, the initials are the first two word-start characters, upper-cased |
| Navbar.InitialsHaveNoSpace | src/components/layout/Navbar.tsx:19-24 | the initials never contain a space |
| Navbar.InitialsExample | src/components/layout/Navbar.tsx:19-24 | "ana  lima", with two spaces, gives "AL" |
| Navbar.BlankNameExample | src/components/layout/Navbar.tsx:18-24 | a name of two spaces is not empty, so it gets no "U". It gets empty initials |

## Left out

- Database access is left out: loading, inserting, updating and deleting clients and agreements, the dashboard counts, and the profile fetch and sign-in. These are remote calls with no local meaning. The loaded rows are parameters of the filter functions, and a query without data is `None`.
- React rendering, state hooks, routing and layout are left out. The filter and search values are parameters.
- The form pages are left out. The client form calls the masks on each keystroke and `unmaskCNPJ` before saving. The model proves properties of those functions, not of the form.
- Date and time display is left out, because it depends on `Intl`, the locale and the host time zone.
- The generated Supabase type declarations are left out; they have no behaviour.
- The registration page's password-match check is left out; its only effect is an alert.
- Case mapping is ASCII only. `toLowerCase` and `toUpperCase` also map non-ASCII letters (`É` → `é`), and the model does not.
- Characters are whole code points. JavaScript strings index UTF-16 code units, so `n[0]` of a name starting with an astral character would be half a surrogate pair; the model takes the whole character.
- The dashboard counts agreements with status "negados" (`src/pages/Dashboard/Dashboard.tsx:67`), while the agreement type uses "cancelado" (`src/pages/Acordo/Acordo.tsx:15`). The dashboard is not part of this model; this inconsistency is only recorded here.
- The dashboard labels every unknown agreement status "Cancelado" (`src/pages/Dashboard/Dashboard.tsx:176-178`). The agreement page shows unknown statuses as stored (`Acordos.StatusTextEchoesUnknown`). Only the agreement page is modelled.
- Formatters.MaskPhone: no prefix lemma is stated, because the phone mask is not prefix-stable. Going from 2 to 3 digits adds the parentheses in front, and going from 10 to 11 digits moves the dash from index 9 to index 10.
- Formatters.FormatCNPJ, Formatters.FormatPhone, Formatters.FormatCEP: their contracts only state that they equal the mask they call. Everything proved of the mask carries over.
- CnpjValidation.ValidateCNPJ: `parseInt` of a character is modelled only for digits, which is all the validator ever passes it after stripping.
- Navbar.GetInitials: `profile.nome` is modelled as an optional string; the other profile fields are not read by the navigation bar.


=== FILE: acordo.dfy ===
/**
 * The agreements page: the status filter over the loaded agreements and the
 * badge colour and label of an agreement's status.
 */
module Acordos {
  import opened Wrappers
  import opened Seqs

  /**
   * One row of the `acordos` table. The status is declared as one of four
   * codes, but the rows arrive unchecked from the database, so any string
   * may appear and the page's fall-back branches handle it.
   */
  datatype Acordo = Acordo(
    id: string,
    titulo: string,
    descricao: string,
    status: string,
    progresso: int,
    criadoEm: string
  )

  /** The filter value that shows agreements of every status. */
  const AllStatuses: string := "todos"

  /** The four status codes the page knows. */
  predicate IsKnownStatus(s: string) {
    s == "em_andamento" || s == "concluido" || s == "aguardando" || s == "cancelado"
  }

  /** Keep an agreement under the filter: "todos", or an exact status match. */
  predicate Kept(filtro: string, a: Acordo) {
    if filtro == AllStatuses then true else a.status == filtro
  }

  /** The agreements kept by the filter, in their loaded order. */
  function FilterAcordos(acordos: seq<Acordo>, filtro: string): (r: seq<Acordo>)
    ensures IsSubsequence(r, acordos)
    ensures forall a :: a in r <==> a in acordos && (filtro == AllStatuses || a.status == filtro)
    ensures forall a :: multiset(r)[a] == if Kept(filtro, a) then multiset(acordos)[a] else 0
  {
    FilterIsSubsequence(a => Kept(filtro, a), acordos);
    FilterCount(a => Kept(filtro, a), acordos);
    FilterMembership(a => Kept(filtro, a), acordos);
    Filter(a => Kept(filtro, a), acordos)
  }

  /** `acordos?.filter(...)`: nothing is shown while the query has no data. */
  function AcordosFiltrados(acordos: Option<seq<Acordo>>, filtro: string): (r: Option<seq<Acordo>>)
    ensures acordos.None? <==> r.None?
    ensures acordos.Some? ==> IsSubsequence(r.value, acordos.value)
    ensures acordos.Some? ==> forall a :: a in r.value <==>
      a in acordos.value && (filtro == AllStatuses || a.status == filtro)
    ensures acordos.Some? ==> forall a ::
              multiset(r.value)[a] == if Kept(filtro, a) then multiset(acordos.value)[a] else 0
  {
    match acordos
    case None => None
    case Some(loaded) => Some(FilterAcordos(loaded, filtro))
  }

  /** "todos" lists every agreement, in the loaded order. */
  lemma AllStatusesShowsAll(acordos: seq<Acordo>)
    ensures FilterAcordos(acordos, AllStatuses) == acordos
  {
    FilterKeepsAll(a => Kept(AllStatuses, a), acordos);
  }

  /** Filtering the listed agreements again by the same status changes nothing. */
  lemma FilterAcordosIdempotent(acordos: seq<Acordo>, filtro: string)
    ensures FilterAcordos(FilterAcordos(acordos, filtro), filtro) == FilterAcordos(acordos, filtro)
  {
    FilterIdempotent(a => Kept(filtro, a), acordos);
  }

  /**
   * The filter is case-sensitive: an agreement stored with a status that
   * differs from the filter value only in case is not listed.
   */
  lemma FilterIsCaseSensitive(acordos: seq<Acordo>, a: Acordo)
    requires a in acordos && a.status == "Concluido"
    ensures a !in FilterAcordos(acordos, "concluido")
  {
  }

  // --------------------------------------------------------- status badge

  const BlueBadge: string := "bg-blue-100 text-blue-800"
  const GreenBadge: string := "bg-green-100 text-green-800"
  const YellowBadge: string := "bg-yellow-100 text-yellow-800"
  const RedBadge: string := "bg-red-100 text-red-800"
  const GrayBadge: string := "bg-gray-100 text-gray-800"

  /** The badge classes for an agreement status, matched exactly. */
  function StatusColor(status: string): (r: string)
    ensures r in {BlueBadge, GreenBadge, YellowBadge, RedBadge, GrayBadge}
  {
    if status == "em_andamento" then BlueBadge
    else if status == "concluido" then GreenBadge
    else if status == "aguardando" then YellowBadge
    else if status == "cancelado" then RedBadge
    else GrayBadge
  }

  /** Each known code has its own colour; gray is reserved for unknown statuses. */
  lemma StatusColorCases(status: string)
    ensures StatusColor(status) == BlueBadge <==> status == "em_andamento"
    ensures StatusColor(status) == GreenBadge <==> status == "concluido"
    ensures StatusColor(status) == YellowBadge <==> status == "aguardando"
    ensures StatusColor(status) == RedBadge <==> status == "cancelado"
    ensures StatusColor(status) == GrayBadge <==> !IsKnownStatus(status)
  {
  }

  /** The display label of an agreement status: unknown statuses are shown as stored. */
  function StatusText(status: string): (r: string)
    ensures IsKnownStatus(status) ==> |r| > 0 && 'A' <= r[0] <= 'Z'
  {
    if status == "em_andamento" then "Em andamento"
    else if status == "concluido" then "Concluído"
    else if status == "aguardando" then "Aguardando"
    else if status == "cancelado" then "Cancelado"
    else status
  }

  /** The label of each of the four codes. */
  lemma StatusTextLabels()
    ensures StatusText("em_andamento") == "Em andamento"
    ensures StatusText("concluido") == "Concluído"
    ensures StatusText("aguardando") == "Aguardando"
    ensures StatusText("cancelado") == "Cancelado"
  {
  }

  /** A status is shown as stored exactly when it is not one of the four codes. */
  lemma StatusTextEchoesUnknown(status: string)
    ensures StatusText(status) == status <==> !IsKnownStatus(status)
  {
  }

  /** The four codes get four different labels. */
  lemma StatusTextDistinguishesKnown(s: string, t: string)
    requires IsKnownStatus(s) && IsKnownStatus(t) && s != t
    ensures StatusText(s) != StatusText(t)
  {
  }

  /**
   * An unknown status spelt like a label reads the same as the code it
   * resembles, while its badge is gray rather than red.
   */
  lemma StatusTextCanCoincide()
    ensures StatusText("Cancelado") == StatusText("cancelado")
    ensures StatusColor("Cancelado") != StatusColor("cancelado")
  {
  }
}

=== FILE: clientes.dfy ===
/**
 * The client list: the status filter and free-text search applied to the
 * loaded clients, and the badge colour of a client's status.
 */
module Clientes {
  import opened Wrappers
  import opened Seqs
  import opened Text

  /** One row of the `clients` table, as the list page reads it. */
  datatype Client = Client(
    id: string,
    cnpj: string,
    razaoSocial: string,
    nomeFantasia: string,
    nomeResponsavel: string,
    email: string,
    telefoneCelular: string,
    status: string,
    cidade: string,
    uf: string,
    dataCadastro: string
  )

  /** The filter value that shows clients of every status. */
  const AllStatuses: string := "todos"

  /** The status filter: "todos" exactly, or the status up to ASCII case. */
  predicate MatchesFiltro(c: Client, filtro: string) {
    filtro == AllStatuses || Lower(c.status) == Lower(filtro)
  }

  /**
   * The search: an empty search matches everything; otherwise the company
   * names and the contact name are searched ignoring case, the CNPJ verbatim.
   */
  predicate MatchesBusca(c: Client, busca: string) {
    || |busca| == 0
    || Includes(Lower(c.razaoSocial), Lower(busca))
    || Includes(Lower(c.nomeFantasia), Lower(busca))
    || Includes(c.cnpj, busca)
    || Includes(Lower(c.nomeResponsavel), Lower(busca))
  }

  /** A client is listed when it passes both the status filter and the search. */
  predicate Shown(filtro: string, busca: string, c: Client) {
    MatchesFiltro(c, filtro) && MatchesBusca(c, busca)
  }

  /** The clients kept by the filter and the search, in their loaded order. */
  function FilterClients(clients: seq<Client>, filtro: string, busca: string): (r: seq<Client>)
    ensures IsSubsequence(r, clients)
    ensures forall c :: c in r <==> c in clients && MatchesFiltro(c, filtro) && MatchesBusca(c, busca)
    ensures forall c :: multiset(r)[c] == if Shown(filtro, busca, c) then multiset(clients)[c] else 0
  {
    FilterIsSubsequence(c => Shown(filtro, busca, c), clients);
    FilterCount(c => Shown(filtro, busca, c), clients);
    FilterMembership(c => Shown(filtro, busca, c), clients);
    Filter(c => Shown(filtro, busca, c), clients)
  }

  /** `clients?.filter(...)`: nothing is shown while the query has no data. */
  function ClientesFiltrados(clients: Option<seq<Client>>, filtro: string, busca: string)
    : (r: Option<seq<Client>>)
    ensures clients.None? <==> r.None?
    ensures clients.Some? ==> IsSubsequence(r.value, clients.value)
    ensures clients.Some? ==> forall c :: c in r.value <==>
      c in clients.value && MatchesFiltro(c, filtro) && MatchesBusca(c, busca)
    ensures clients.Some? ==> forall c ::
              multiset(r.value)[c] == if Shown(filtro, busca, c) then multiset(clients.value)[c] else 0
  {
    match clients
    case None => None
    case Some(cs) => Some(FilterClients(cs, filtro, busca))
  }

  // ------------------------------------------------------ reference meaning

  /** The status filter, stated letter by letter. */
  lemma MatchesFiltroIff(c: Client, filtro: string)
    ensures MatchesFiltro(c, filtro) <==> filtro == AllStatuses || SameIgnoringCase(c.status, filtro)
  {
    LowerEqualIff(c.status, filtro);
  }

  /** The search, stated as occurrences at some position. */
  lemma MatchesBuscaIff(c: Client, busca: string)
    ensures MatchesBusca(c, busca) <==>
      || |busca| == 0
      || (exists i :: OccursAtIgnoringCase(c.razaoSocial, busca, i))
      || (exists i :: OccursAtIgnoringCase(c.nomeFantasia, busca, i))
      || (exists i :: OccursAt(c.cnpj, busca, i))
      || (exists i :: OccursAtIgnoringCase(c.nomeResponsavel, busca, i))
  {
    IncludesLowerIff(c.razaoSocial, busca);
    IncludesLowerIff(c.nomeFantasia, busca);
    IncludesIffOccurs(c.cnpj, busca);
    IncludesLowerIff(c.nomeResponsavel, busca);
  }

  /** The page's initial state, "todos" and an empty search, lists every client. */
  lemma InitialStateShowsAll(clients: seq<Client>)
    ensures FilterClients(clients, AllStatuses, "") == clients
  {
    FilterKeepsAll(c => Shown(AllStatuses, "", c), clients);
  }

  /** Applying the same filter and search to the listed clients changes nothing. */
  lemma FilterClientsIdempotent(clients: seq<Client>, filtro: string, busca: string)
    ensures FilterClients(FilterClients(clients, filtro, busca), filtro, busca)
         == FilterClients(clients, filtro, busca)
  {
    FilterIdempotent(c => Shown(filtro, busca, c), clients);
  }

  /**
   * The stored CNPJ holds digits only, and it is searched verbatim: a search
   * containing any non-digit, such as a formatted "11.222", never matches
   * it, so such a client is found only through its names.
   */
  lemma {:induction false} FormattedSearchMissesCnpj(cnpj: string, busca: string)
    requires AllDigits(cnpj)
    requires exists j :: 0 <= j < |busca| && !IsDigit(busca[j])
    ensures !Includes(cnpj, busca)
  {
    IncludesIffOccurs(cnpj, busca);
    var j :| 0 <= j < |busca| && !IsDigit(busca[j]);
    forall i | 0 <= i && i + |busca| <= |cnpj|
      ensures !OccursAt(cnpj, busca, i)
    {
      assert IsDigit(cnpj[i..i + |busca|][j]);
    }
  }

  // --------------------------------------------------------- status badge

  const GreenBadge: string := "bg-green-100 text-green-800"
  const GrayBadge: string := "bg-gray-100 text-gray-800"
  const RedBadge: string := "bg-red-100 text-red-800"
  const BlueBadge: string := "bg-blue-100 text-blue-800"

  /** The badge classes for a client status, matched after lower-casing. */
  function StatusColor(status: string): (r: string)
    ensures r in {GreenBadge, GrayBadge, RedBadge, BlueBadge}
  {
    var s := Lower(status);
    if s == "ativo" then GreenBadge
    else if s == "inativo" then GrayBadge
    else if s == "suspenso" then RedBadge
    else BlueBadge
  }

  /** Each known status has its own colour; any other status falls back to blue. */
  lemma StatusColorCases(status: string)
    ensures StatusColor(status) == GreenBadge <==> SameIgnoringCase(status, "ativo")
    ensures StatusColor(status) == GrayBadge <==> SameIgnoringCase(status, "inativo")
    ensures StatusColor(status) == RedBadge <==> SameIgnoringCase(status, "suspenso")
    ensures StatusColor(status) == BlueBadge <==>
      !SameIgnoringCase(status, "ativo") && !SameIgnoringCase(status, "inativo")
      && !SameIgnoringCase(status, "suspenso")
  {
    assert Lower("ativo") == "ativo" && Lower("inativo") == "inativo" && Lower("suspenso") == "suspenso";
    LowerEqualIff(status, "ativo");
    LowerEqualIff(status, "inativo");
    LowerEqualIff(status, "suspenso");
  }

  /** The colour does not depend on how the status is capitalised. */
  lemma StatusColorIgnoresCase(status: string)
    ensures StatusColor(Upper(status)) == StatusColor(status)
  {
    LowerOfUpper(status);
  }
}

=== FILE: cnpj_validation.dfy ===
/**
 * The CNPJ check-digit validator: modulo-11 weighted sums over the first 12
 * and the first 13 digits, as published by the Brazilian Receita Federal.
 */
module CnpjValidation {
  import opened Seqs
  import opened Text
  import opened Formatters
  import opened FormatterProofs

  /** `parseInt` of a single decimal digit. */
  function DigitValue(c: char): int {
    c as int - '0' as int
  }

  /** The digit character for a value 0..9. */
  function DigitChar(d: int): (c: char)
    requires 0 <= d <= 9
    ensures IsDigit(c) && DigitValue(c) == d
  {
    ('0' as int + d) as char
  }

  /**
   * Reference weight of position i in a run of n digits: 2 on the last
   * digit, rising by one towards the front and wrapping from 9 back to 2.
   */
  function Weight(n: nat, i: nat): int {
    2 + (n - 1 - i) % 8
  }

  /**
   * The weights of both runs in full: 5,4,3,2,9,8,7,6,5,4,3,2 for the first
   * check digit and 6,5,4,3,2,9,8,7,6,5,4,3,2 for the second.
   */
  lemma CheckWeights()
    ensures seq(12, i requires 0 <= i < 12 => Weight(12, i)) == [5, 4, 3, 2, 9, 8, 7, 6, 5, 4, 3, 2]
    ensures seq(13, i requires 0 <= i < 13 => Weight(13, i)) == [6, 5, 4, 3, 2, 9, 8, 7, 6, 5, 4, 3, 2]
  {
  }

  /** Weighted sum of the first k digits of c with the weights of an n-digit run. */
  function WeightedSum(c: string, n: nat, k: nat): (sum: int)
    requires k <= |c| && AllDigits(c)
    ensures sum >= 0
    decreases k
  {
    if k == 0 then 0 else WeightedSum(c, n, k - 1) + DigitValue(c[k - 1]) * Weight(n, k - 1)
  }

  /**
   * The check digit for a weighted sum: 0 when the remainder modulo 11 is 0
   * or 1, otherwise 11 minus the remainder.
   */
  function CheckDigit(sum: nat): (d: int)
    ensures 0 <= d <= 9
    ensures (sum + d) % 11 == 0 || (sum % 11 == 1 && d == 0)
  {
    if sum % 11 < 2 then 0 else 11 - sum % 11
  }

  /** `/^(\d)\1+$/`: at least two characters, all the same digit. */
  predicate RepeatedDigit(c: string) {
    |c| >= 2 && IsDigit(c[0]) && forall i :: 1 <= i < |c| ==> c[i] == c[0]
  }

  /** A run of n copies of one character. */
  function Repeat(ch: char, n: nat): (r: string)
    ensures |r| == n && forall i :: 0 <= i < n ==> r[i] == ch
  {
    seq(n, _ => ch)
  }

  /**
   * The regular expression read as a whole-string match: a digit, captured,
   * followed by one or more copies of it.
   */
  lemma RepeatedDigitIff(c: string)
    ensures RepeatedDigit(c) <==> |c| >= 2 && IsDigit(c[0]) && c == Repeat(c[0], |c|)
  {
    if |c| >= 2 && IsDigit(c[0]) && c == Repeat(c[0], |c|) {
      assert forall i :: 1 <= i < |c| ==> c[i] == Repeat(c[0], |c|)[i];
    }
  }

  /** Both check digits of a 14-digit string match their weighted sums. */
  predicate CheckDigitsMatch(c: string)
    requires |c| == 14 && AllDigits(c)
  {
    && DigitValue(c[12]) == CheckDigit(WeightedSum(c, 12, 12))
    && DigitValue(c[13]) == CheckDigit(WeightedSum(c, 13, 13))
  }

  /** Reference definition of a valid CNPJ, in whatever formatting it is written. */
  predicate IsValidCNPJ(s: string) {
    var c := Digits(s);
    DigitsAreDigits(s);
    |c| == 14 && !RepeatedDigit(c) && CheckDigitsMatch(c)
  }

  /** Moving one position right lowers the weight by one, wrapping from 2 to 9. */
  lemma WeightStep(n: nat, i: nat)
    ensures Weight(n, i + 1) == if Weight(n, i) == 2 then 9 else Weight(n, i) - 1
  {
    var x := n - 1 - i;
    if x % 8 == 0 {
      assert (x - 1) % 8 == 7 by {
        assert x == 8 * (x / 8);
        assert x - 1 == 8 * (x / 8 - 1) + 7;
      }
    } else {
      assert (x - 1) % 8 == x % 8 - 1 by {
        assert x == 8 * (x / 8) + x % 8;
        assert x - 1 == 8 * (x / 8) + (x % 8 - 1);
      }
    }
  }

  /**
   * validateCNPJ as written: strip to digits, reject a length other than 14
   * and a single repeated digit, then recompute each check digit with a
   * running weight that counts down and wraps from 2 to 9.
   */
  method ValidateCNPJ(cnpj: string) returns (ok: bool)
    ensures ok == IsValidCNPJ(cnpj)
    ensures |Digits(cnpj)| != 14 ==> !ok
    ensures RepeatedDigit(Digits(cnpj)) ==> !ok
  {
    var clean := Digits(cnpj);
    DigitsAreDigits(cnpj);
    if |clean| != 14 {
      return false;
    }
    if RepeatedDigit(clean) {
      return false;
    }

    var sum := 0;
    var weight := 5;
    for i := 0 to 12
      invariant weight == Weight(12, i)
      invariant sum == WeightedSum(clean, 12, i)
    {
      sum := sum + DigitValue(clean[i]) * weight;
      WeightStep(12, i);
      weight := if weight == 2 then 9 else weight - 1;
    }
    var digit := if sum % 11 < 2 then 0 else 11 - sum % 11;
    if DigitValue(clean[12]) != digit {
      return false;
    }

    sum := 0;
    weight := 6;
    for i := 0 to 13
      invariant weight == Weight(13, i)
      invariant sum == WeightedSum(clean, 13, i)
    {
      sum := sum + DigitValue(clean[i]) * weight;
      WeightStep(13, i);
      weight := if weight == 2 then 9 else weight - 1;
    }
    digit := if sum % 11 < 2 then 0 else 11 - sum % 11;
    return DigitValue(clean[13]) == digit;
  }

  /** Validation sees only the digits: formatting characters never change the verdict. */
  lemma ValidateIgnoresFormatting(s: string)
    ensures IsValidCNPJ(s) == IsValidCNPJ(UnmaskCNPJ(s))
  {
    DigitsIdempotent(s);
  }

  /** Masking a 14-digit identifier for display does not change its validity. */
  lemma ValidateAfterMask(s: string)
    requires |Digits(s)| == 14
    ensures IsValidCNPJ(MaskCNPJ(s)) == IsValidCNPJ(s)
  {
    assert Digits(MaskCNPJ(s)) == Digits(s) by {
      MaskCNPJDigits(s);
    }
  }

  /** The weighted sum over the first k digits reads nothing beyond them. */
  lemma {:induction false} WeightedSumPrefix(a: string, b: string, n: nat, k: nat)
    requires k <= |a| && k <= |b| && AllDigits(a) && AllDigits(b)
    requires a[..k] == b[..k]
    ensures WeightedSum(a, n, k) == WeightedSum(b, n, k)
    decreases k
  {
    if k > 0 {
      assert a[k - 1] == a[..k][k - 1] == b[..k][k - 1] == b[k - 1];
      assert a[..k - 1] == a[..k][..k - 1] == b[..k][..k - 1] == b[..k - 1];
      WeightedSumPrefix(a, b, n, k - 1);
    }
  }

  /** The forward algorithm: twelve base digits followed by their two check digits. */
  function CompleteCNPJ(base: string): (c: string)
    requires |base| == 12 && AllDigits(base)
    ensures |c| == 14 && AllDigits(c) && c[..12] == base
    ensures CheckDigitsMatch(c)
  {
    var d1 := DigitChar(CheckDigit(WeightedSum(base, 12, 12)));
    var b1 := base + [d1];
    var d2 := DigitChar(CheckDigit(WeightedSum(b1, 13, 13)));
    var c := b1 + [d2];
    assert c[..12] == base[..12] == b1[..12];
    assert c[..13] == b1[..13];
    WeightedSumPrefix(c, base, 12, 12);
    WeightedSumPrefix(c, b1, 13, 13);
    c
  }

  /**
   * The check digits are determined by the base: a 14-digit string passes the
   * checksum exactly when it is the completion of its first twelve digits.
   */
  lemma ChecksumIsCompletion(c: string)
    requires |c| == 14 && AllDigits(c)
    ensures CheckDigitsMatch(c) <==> c == CompleteCNPJ(c[..12])
  {
    if CheckDigitsMatch(c) {
      SameCheckDigits(c, CompleteCNPJ(c[..12]));
    }
  }

  /** Two strings that pass the checksum and share their first twelve digits are equal. */
  lemma SameCheckDigits(c: string, d: string)
    requires |c| == 14 && AllDigits(c) && |d| == 14 && AllDigits(d)
    requires c[..12] == d[..12]
    ensures CheckDigitsMatch(c) && CheckDigitsMatch(d) ==> c == d
  {
    if CheckDigitsMatch(c) && CheckDigitsMatch(d) {
      FirstCheckDigitAgrees(c, d);
      SecondCheckDigitAgrees(c, d);
    }
  }

  /**
   * A check digit is a function of the digits before it: strings that agree
   * on their first k digits and whose digit at k is the check digit of that
   * prefix agree on their first k + 1 digits.
   */
  lemma CheckDigitAgrees(c: string, d: string, n: nat, k: nat)
    requires k < |c| && k < |d| && AllDigits(c) && AllDigits(d)
    requires c[..k] == d[..k]
    requires DigitValue(c[k]) == CheckDigit(WeightedSum(c, n, k))
    requires DigitValue(d[k]) == CheckDigit(WeightedSum(d, n, k))
    ensures c[..k + 1] == d[..k + 1]
  {
    WeightedSumPrefix(c, d, n, k);
    PrefixExtend(c, d, k);
  }

  /** Equal first twelve digits force equal first check digits. */
  lemma FirstCheckDigitAgrees(c: string, d: string)
    requires |c| == 14 && AllDigits(c) && |d| == 14 && AllDigits(d)
    requires c[..12] == d[..12]
    ensures CheckDigitsMatch(c) && CheckDigitsMatch(d) ==> c[..13] == d[..13]
  {
    if CheckDigitsMatch(c) && CheckDigitsMatch(d) {
      CheckDigitAgrees(c, d, 12, 12);
    }
  }

  /** Equal first thirteen digits force equal second check digits. */
  lemma SecondCheckDigitAgrees(c: string, d: string)
    requires |c| == 14 && AllDigits(c) && |d| == 14 && AllDigits(d)
    requires c[..13] == d[..13]
    ensures CheckDigitsMatch(c) && CheckDigitsMatch(d) ==> c == d
  {
    if CheckDigitsMatch(c) && CheckDigitsMatch(d) {
      CheckDigitAgrees(c, d, 13, 13);
      assert c[..14] == c && d[..14] == d;
    }
  }

  /** A completion is accepted exactly when it is not one repeated digit. */
  lemma CompletionIsValid(base: string)
    requires |base| == 12 && AllDigits(base)
    ensures IsValidCNPJ(CompleteCNPJ(base)) <==> !RepeatedDigit(CompleteCNPJ(base))
  {
    DigitsOfDigits(CompleteCNPJ(base));
  }

  /**
   * Fourteen zeros satisfy both check-digit equations, so the explicit
   * repeated-digit test is what rejects them.
   */
  lemma ZerosPassChecksum(c: string)
    requires |c| == 14 && forall i :: 0 <= i < 14 ==> c[i] == '0'
    ensures CheckDigitsMatch(c)
    ensures !IsValidCNPJ(c)
  {
    ZeroSum(c, 12, 12);
    ZeroSum(c, 13, 13);
    DigitsOfDigits(c);
  }

  lemma {:induction false} ZeroSum(c: string, n: nat, k: nat)
    requires k <= |c| && AllDigits(c)
    requires forall i :: 0 <= i < |c| ==> c[i] == '0'
    ensures WeightedSum(c, n, k) == 0
    decreases k
  {
    if k > 0 {
      ZeroSum(c, n, k - 1);
    }
  }

  /** 11.222.333/0001-81 is a valid identifier. */
  lemma ValidExample(s: string)
    requires s == "11.222.333/0001-81"
    ensures IsValidCNPJ(s)
  {
    MaskedExampleCharacters(s);
    ExampleChecksum(Digits(s));
  }

  /** The digits of the masked example are 11222333000181. */
  lemma MaskedExampleCharacters(s: string)
    requires s == "11.222.333/0001-81"
    ensures CnpjCharacters(Digits(s))
  {
    var raw := "11222333000181";
    assert CnpjCharacters(raw);
    CnpjLayoutExample(raw);
    CnpjCharactersAreDigits(raw);
    DigitsOfDigits(raw);
    MaskCNPJDigits(raw);
  }

  /** The digits 11222333000181 pass both check digits and are not a repetition. */
  lemma ExampleChecksum(c: string)
    requires CnpjCharacters(c)
    ensures AllDigits(c)
    ensures CheckDigitsMatch(c) && !RepeatedDigit(c)
  {
    CnpjCharactersAreDigits(c);
    assert CheckDigitsMatch(c) by {
      FirstExampleSum(c);
      SecondExampleSum(c);
    }
    assert !RepeatedDigit(c) by {
      assert c[2] != c[0];
    }
  }

  lemma FirstExampleSum(c: string)
    requires CnpjCharacters(c) && AllDigits(c)
    ensures WeightedSum(c, 12, 12) == 102
  {
    assert WeightedSum(c, 12, 1) == 5;
    assert WeightedSum(c, 12, 2) == 9;
    assert WeightedSum(c, 12, 3) == 15;
    assert WeightedSum(c, 12, 4) == 19;
    assert WeightedSum(c, 12, 5) == 37;
    assert WeightedSum(c, 12, 6) == 61;
    assert WeightedSum(c, 12, 7) == 82;
    assert WeightedSum(c, 12, 8) == 100;
    assert WeightedSum(c, 12, 9) == 100;
    assert WeightedSum(c, 12, 10) == 100;
    assert WeightedSum(c, 12, 11) == 100;
  }

  lemma SecondExampleSum(c: string)
    requires CnpjCharacters(c) && AllDigits(c)
    ensures WeightedSum(c, 13, 13) == 120
  {
    assert WeightedSum(c, 13, 1) == 6;
    assert WeightedSum(c, 13, 2) == 11;
    assert WeightedSum(c, 13, 3) == 19;
    assert WeightedSum(c, 13, 4) == 25;
    assert WeightedSum(c, 13, 5) == 29;
    assert WeightedSum(c, 13, 6) == 56;
    assert WeightedSum(c, 13, 7) == 80;
    assert WeightedSum(c, 13, 8) == 101;
    assert WeightedSum(c, 13, 9) == 101;
    assert WeightedSum(c, 13, 10) == 101;
    assert WeightedSum(c, 13, 11) == 101;
    assert WeightedSum(c, 13, 12) == 104;
  }
}

=== FILE: formatter_proofs.dfy ===
/**
 * Properties of the input masks: which digits survive, idempotence, the
 * round trip through unmasking, and stability while a value is typed.
 */
module FormatterProofs {
  import opened Seqs
  import opened Text
  import opened Formatters

  /** The digit indices the display form puts a separator in front of. */
  predicate IsSeparatorIndex(i: nat) {
    i == 2 || i == 5 || i == 8 || i == 12
  }

  function SeparatorChar(i: nat): char {
    if i == 8 then '/' else if i == 12 then '-' else '.'
  }

  /** The separator in front of the digit at index i, if any. */
  function SeparatorBefore(i: nat): string {
    if IsSeparatorIndex(i) then [SeparatorChar(i)] else []
  }

  /** No separator falls in front of the digits at indices a+1 .. b-1. */
  predicate NoSeparatorWithin(a: nat, b: nat) {
    && !(a < 2 < b) && !(a < 5 < b) && !(a < 8 < b) && !(a < 12 < b)
  }

  /**
   * Reference layout of the display form, built digit by digit from the
   * left: the digit at index i is preceded by its separator, if any.
   */
  function CnpjRender(c: string): string
    decreases |c|
  {
    if |c| == 0 then [] else CnpjRender(c[..|c| - 1]) + SeparatorBefore(|c| - 1) + [c[|c| - 1]]
  }

  /** Rendering c[..b] extends the rendering of c[..b-1] by one digit. */
  lemma CnpjRenderStep(c: string, b: nat)
    requires 0 < b <= |c|
    ensures CnpjRender(c[..b]) == CnpjRender(c[..b - 1]) + SeparatorBefore(b - 1) + [c[b - 1]]
  {
    assert c[..b][..b - 1] == c[..b - 1];
  }

  /**
   * A group of digits c[a..b] with no separator inside it renders as its
   * leading separator followed by the group.
   */
  lemma {:induction false} CnpjRenderGroup(c: string, a: nat, b: nat)
    requires a < b <= |c|
    requires NoSeparatorWithin(a, b)
    ensures CnpjRender(c[..b]) == CnpjRender(c[..a]) + SeparatorBefore(a) + c[a..b]
    decreases b
  {
    CnpjRenderStep(c, b);
    var x := CnpjRender(c[..a]) + SeparatorBefore(a);
    if b == a + 1 {
      assert [c[a]] == c[a..b];
    } else {
      CnpjRenderGroup(c, a, b - 1);
      assert SeparatorBefore(b - 1) == [];
      assert x + c[a..b - 1] + [] == x + c[a..b - 1];
      AppendAssoc(x, c[a..b - 1], [c[b - 1]]);
      assert c[a..b - 1] + [c[b - 1]] == c[a..b];
    }
  }

  /** Rendering a prefix gives a prefix of the rendering. */
  lemma {:induction false} CnpjRenderPrefix(c: string, k: nat)
    requires k <= |c|
    ensures CnpjRender(c[..k]) <= CnpjRender(c)
    decreases |c| - k
  {
    if k == |c| {
      assert c[..k] == c;
    } else {
      var d := c[..|c| - 1];
      assert d[..k] == c[..k];
      CnpjRenderPrefix(d, k);
      assert CnpjRender(d) <= CnpjRender(c) by {
        assert c[..|c|] == c;
        CnpjRenderStep(c, |c|);
      }
    }
  }

  /** Rendering the first b digits, for a group [a, b) with its separator in front. */
  lemma RenderUpTo(t: string, a: nat, b: nat, r: string)
    requires a < b <= |t| && NoSeparatorWithin(a, b)
    requires r == CnpjRender(t[..a])
    ensures CnpjRender(t[..b]) == r + SeparatorBefore(a) + t[a..b]
  {
    CnpjRenderGroup(t, a, b);
  }

  /** Up to 12 digits, `maskCNPJ` slices the digits themselves. */
  lemma ShortSlices(c: string)
    requires |c| <= 12
    ensures Take(c, 14) == c
    ensures 2 < |c| ==> Slice(c, 0, 2) == c[..2] && SliceFrom(c, 2) == c[2..]
    ensures 5 < |c| ==> Slice(c, 2, 5) == c[2..5] && SliceFrom(c, 5) == c[5..]
    ensures 8 < |c| ==> Slice(c, 5, 8) == c[5..8] && SliceFrom(c, 8) == c[8..]
  {
  }

  /** Beyond 12 digits, `maskCNPJ` slices the first 14 digits. */
  lemma LongSlices(c: string, t: string)
    requires 12 < |c| && t == Take(c, 14)
    ensures Slice(c, 0, 2) == t[..2] && Slice(c, 2, 5) == t[2..5] && Slice(c, 5, 8) == t[5..8]
    ensures Slice(c, 8, 12) == t[8..12] && Slice(c, 12, 14) == t[12..]
  {
  }

  lemma ThreeToFiveDigitsLayout(c: string)
    requires 2 < |c| <= 5
    ensures CnpjLayout(c) == CnpjRender(Take(c, 14))
  {
    var n := |c|;
    ShortSlices(c);
    assert c[..n] == c;
    RenderUpTo(c, 0, 2, []);
    RenderUpTo(c, 2, n, c[..2]);
  }

  lemma SixToEightDigitsLayout(c: string)
    requires 5 < |c| <= 8
    ensures CnpjLayout(c) == CnpjRender(Take(c, 14))
  {
    var n := |c|;
    ShortSlices(c);
    assert c[..n] == c;
    var r2 := c[..2];
    RenderUpTo(c, 0, 2, []);
    RenderUpTo(c, 2, 5, r2);
    RenderUpTo(c, 5, n, r2 + "." + c[2..5]);
  }

  lemma NineToTwelveDigitsLayout(c: string)
    requires 8 < |c| <= 12
    ensures CnpjLayout(c) == CnpjRender(Take(c, 14))
  {
    var n := |c|;
    ShortSlices(c);
    assert c[..n] == c;
    var r2 := c[..2];
    var r5 := r2 + "." + c[2..5];
    RenderUpTo(c, 0, 2, []);
    RenderUpTo(c, 2, 5, r2);
    RenderUpTo(c, 5, 8, r5);
    RenderUpTo(c, 8, n, r5 + "." + c[5..8]);
  }

  lemma LongLayout(c: string)
    requires 12 < |c|
    ensures CnpjLayout(c) == CnpjRender(Take(c, 14))
  {
    var t := Take(c, 14);
    var n := |t|;
    LongSlices(c, t);
    assert t[..n] == t;
    var r2 := t[..2];
    var r5 := r2 + "." + t[2..5];
    var r8 := r5 + "." + t[5..8];
    RenderUpTo(t, 0, 2, []);
    RenderUpTo(t, 2, 5, r2);
    RenderUpTo(t, 5, 8, r5);
    RenderUpTo(t, 8, 12, r8);
    RenderUpTo(t, 12, n, r8 + "/" + t[8..12]);
  }

  /**
   * The tiers of `maskCNPJ` agree with the digit-by-digit layout of the first
   * 14 digits.
   */
  lemma CnpjLayoutIsRender(c: string)
    ensures CnpjLayout(c) == CnpjRender(Take(c, 14))
  {
    if |c| <= 2 {
      if |c| > 0 {
        ShortSlices(c);
        assert c[..|c|] == c;
        RenderUpTo(c, 0, |c|, []);
      }
    } else if |c| <= 5 {
      ThreeToFiveDigitsLayout(c);
    } else if |c| <= 8 {
      SixToEightDigitsLayout(c);
    } else if |c| <= 12 {
      NineToTwelveDigitsLayout(c);
    } else {
      LongLayout(c);
    }
  }

  lemma {:induction false} CnpjRenderDigits(x: string)
    requires AllDigits(x)
    ensures Digits(CnpjRender(x)) == x
    decreases |x|
  {
    if |x| > 0 {
      var d := x[..|x| - 1];
      var sep := SeparatorBefore(|x| - 1);
      var last := [x[|x| - 1]];
      assert Digits(CnpjRender(d)) == d by { CnpjRenderDigits(d); }
      assert Digits(CnpjRender(d) + sep) == d by {
        DigitsAppend(CnpjRender(d), sep);
        DigitsOfSeparator(sep);
      }
      assert Digits(CnpjRender(d) + sep + last) == d + last by {
        DigitsAppend(CnpjRender(d) + sep, last);
        DigitsOfDigits(last);
      }
      assert d + last == x;
    }
  }

  /** Masking keeps exactly the first 14 digits of the input, in order, and adds only separators. */
  lemma MaskCNPJDigits(s: string)
    ensures Digits(MaskCNPJ(s)) == Take(Digits(s), 14)
  {
    var c := Digits(s);
    DigitsAreDigits(s);
    CnpjLayoutIsRender(c);
    CnpjRenderDigits(Take(c, 14));
  }

  /** Unmasking an already unmasked value changes nothing. */
  lemma UnmaskCNPJIdempotent(s: string)
    ensures UnmaskCNPJ(UnmaskCNPJ(s)) == UnmaskCNPJ(s)
  {
    DigitsIdempotent(s);
  }

  /** unmaskCNPJ(maskCNPJ(s)) recovers the first 14 digits of s. */
  lemma UnmaskMaskCNPJ(s: string)
    ensures UnmaskCNPJ(MaskCNPJ(s)) == Take(UnmaskCNPJ(s), 14)
  {
    MaskCNPJDigits(s);
  }

  /** A stored raw identifier of 14 digits survives display and unmasking unchanged. */
  lemma RawCNPJRoundTrip(d: string)
    requires |d| == 14 && AllDigits(d)
    ensures UnmaskCNPJ(MaskCNPJ(d)) == d
  {
    DigitsOfDigits(d);
    MaskCNPJDigits(d);
  }

  /** Re-masking an already masked value changes nothing. */
  lemma MaskCNPJIdempotent(s: string)
    ensures MaskCNPJ(MaskCNPJ(s)) == MaskCNPJ(s)
  {
    var c := Digits(s);
    MaskCNPJDigits(s);
    CnpjLayoutIsRender(c);
    CnpjLayoutIsRender(Take(c, 14));
    TakeTake(c, 14);
  }

  /** Masking the unmasked display form gives the display form back. */
  lemma MaskUnmaskCNPJ(s: string)
    ensures MaskCNPJ(UnmaskCNPJ(MaskCNPJ(s))) == MaskCNPJ(s)
  {
    MaskCNPJDigits(s);
    DigitsIdempotent(s);
    var c := Digits(s);
    CnpjLayoutIsRender(c);
    CnpjLayoutIsRender(Take(c, 14));
    TakeTake(c, 14);
    DigitsAreDigits(s);
    DigitsOfDigits(Take(c, 14));
  }

  /**
   * Incremental typing: the mask of any prefix of the input is a prefix of
   * the mask of the whole input, so separators never move as digits arrive.
   */
  lemma MaskCNPJPrefix(s: string, k: nat)
    requires k <= |s|
    ensures MaskCNPJ(s[..k]) <= MaskCNPJ(s)
  {
    var p := Digits(s[..k]);
    var c := Digits(s);
    DigitsOfPrefix(s, k);
    TakeMonotonic(p, c, 14);
    var tp, tc := Take(p, 14), Take(c, 14);
    assert tc[..|tp|] == tp;
    CnpjRenderPrefix(tc, |tp|);
    CnpjLayoutIsRender(p);
    CnpjLayoutIsRender(c);
  }

  /** Appending a separator adds no digits. */
  lemma DigitsAppendSeparator(x: string, sep: string)
    requires NoDigits(sep)
    ensures Digits(x + sep) == Digits(x)
  {
    DigitsAppend(x, sep);
    DigitsOfSeparator(sep);
    assert Digits(x) + [] == Digits(x);
  }

  /** Appending a run of digits adds exactly those digits. */
  lemma DigitsAppendDigits(x: string, d: string)
    requires AllDigits(d)
    ensures Digits(x + d) == Digits(x) + d
  {
    DigitsAppend(x, d);
    DigitsOfDigits(d);
  }

  lemma PhoneTwoGroupsDigits(a: string, b: string)
    requires AllDigits(a) && AllDigits(b)
    ensures Digits("(" + a + ") " + b) == a + b
  {
    DigitsOfSeparator("(");
    DigitsAppendDigits("(", a);
    assert Digits("(" + a) == a;
    DigitsAppendSeparator("(" + a, ") ");
    DigitsAppendDigits("(" + a + ") ", b);
  }

  lemma PhoneThreeGroupsDigits(a: string, b: string, d: string)
    requires AllDigits(a) && AllDigits(b) && AllDigits(d)
    ensures Digits("(" + a + ") " + b + "-" + d) == a + b + d
  {
    PhoneTwoGroupsDigits(a, b);
    DigitsAppendSeparator("(" + a + ") " + b, "-");
    DigitsAppendDigits("(" + a + ") " + b + "-", d);
  }

  /** maskPhone keeps exactly the first 11 digits of the input. */
  lemma MaskPhoneDigits(s: string)
    ensures Digits(MaskPhone(s)) == Take(Digits(s), 11)
  {
    var c := Digits(s);
    DigitsAreDigits(s);
    if |c| <= 2 {
      DigitsOfDigits(c);
    } else if |c| <= 6 {
      assert MaskPhone(s) == "(" + c[..2] + ") " + c[2..];
      PhoneTwoGroupsDigits(c[..2], c[2..]);
      assert c == c[..2] + c[2..];
    } else if |c| <= 10 {
      assert MaskPhone(s) == "(" + c[..2] + ") " + c[2..6] + "-" + c[6..];
      PhoneThreeGroupsDigits(c[..2], c[2..6], c[6..]);
      assert c == c[..2] + c[2..6] + c[6..];
    } else {
      assert MaskPhone(s) == "(" + c[..2] + ") " + c[2..7] + "-" + c[7..11];
      PhoneThreeGroupsDigits(c[..2], c[2..7], c[7..11]);
      assert c[..11] == c[..2] + c[2..7] + c[7..11];
    }
  }

  /** Re-masking an already masked phone number changes nothing. */
  lemma MaskPhoneIdempotent(s: string)
    ensures MaskPhone(MaskPhone(s)) == MaskPhone(s)
  {
    MaskPhoneDigits(s);
    var c := Digits(s);
    if |c| > 11 {
      var d := c[..11];
      assert d[..2] == c[..2] && d[2..7] == c[2..7] && d[7..11] == c[7..11];
      assert PhoneLayout(d) == PhoneLayout(c);
    }
  }

  /** maskCEP keeps exactly the first 8 digits of the input. */
  lemma MaskCEPDigits(s: string)
    ensures Digits(MaskCEP(s)) == Take(Digits(s), 8)
  {
    var c := Digits(s);
    DigitsAreDigits(s);
    if |c| <= 5 {
      DigitsOfDigits(c);
    } else {
      var tail := Slice(c, 5, 8);
      assert MaskCEP(s) == c[..5] + "-" + tail;
      DigitsOfDigits(c[..5]);
      DigitsAppendSeparator(c[..5], "-");
      DigitsAppendDigits(c[..5] + "-", tail);
      assert Take(c, 8) == c[..5] + tail;
    }
  }

  /** Re-masking an already masked postal code changes nothing. */
  lemma MaskCEPIdempotent(s: string)
    ensures MaskCEP(MaskCEP(s)) == MaskCEP(s)
  {
    MaskCEPDigits(s);
  }

  /** Incremental typing for the postal code: the dash never moves. */
  lemma MaskCEPPrefix(s: string, k: nat)
    requires k <= |s|
    ensures MaskCEP(s[..k]) <= MaskCEP(s)
  {
    DigitsOfPrefix(s, k);
  }

  /**
   * Thirteen digits take the last tier, and `slice(12, 14)` clamps to the
   * one digit left, so the last group after the dash has a single digit.
   */
  lemma ThirteenDigitsCNPJ(c: string)
    requires |c| == 13
    ensures CnpjLayout(c) == c[..2] + "." + c[2..5] + "." + c[5..8] + "/" + c[8..12] + "-" + [c[12]]
  {
    SliceClampsEnd(c, 12, 14);
    assert c[12..] == [c[12]];
  }

  // ------------------------------------------------------------ examples
  //
  // Each example states the characters of its input position by position,
  // so that the layout is computed from those facts rather than by unfolding
  // a string literal.

  /** The characters of 11987654321, position by position. */
  predicate MobileCharacters(c: string) {
    |c| == 11
    && c[0] == '1' && c[1] == '1' && c[2] == '9' && c[3] == '8' && c[4] == '7'
    && c[5] == '6' && c[6] == '5' && c[7] == '4' && c[8] == '3' && c[9] == '2'
    && c[10] == '1'
  }

  lemma MobileLayout(c: string)
    requires MobileCharacters(c)
    ensures MaskPhone(c) == "(11) 98765-4321"
  {
    forall i | 0 <= i < 11
      ensures IsDigit(c[i])
    {
    }
    DigitsOfDigits(c);
    assert c[..2] == "11";
    assert c[2..7] == "98765";
    assert c[7..11] == "4321";
  }

  lemma MaskPhoneMobileExample(s: string)
    requires s == "11987654321"
    ensures MaskPhone(s) == "(11) 98765-4321"
  {
    assert MobileCharacters(s);
    MobileLayout(s);
  }

  /** The characters of 1133334444, position by position. */
  predicate LandlineCharacters(c: string) {
    |c| == 10
    && c[0] == '1' && c[1] == '1' && c[2] == '3' && c[3] == '3' && c[4] == '3'
    && c[5] == '3' && c[6] == '4' && c[7] == '4' && c[8] == '4' && c[9] == '4'
  }

  lemma LandlineLayout(c: string)
    requires LandlineCharacters(c)
    ensures MaskPhone(c) == "(11) 3333-4444"
  {
    forall i | 0 <= i < 10
      ensures IsDigit(c[i])
    {
    }
    DigitsOfDigits(c);
    assert c[..2] == "11";
    assert c[2..6] == "3333";
    assert c[6..] == "4444";
  }

  lemma MaskPhoneLandlineExample(s: string)
    requires s == "1133334444"
    ensures MaskPhone(s) == "(11) 3333-4444"
  {
    assert LandlineCharacters(s);
    LandlineLayout(s);
  }

  /** The characters of 01310100, position by position. */
  predicate CepCharacters(c: string) {
    |c| == 8
    && c[0] == '0' && c[1] == '1' && c[2] == '3' && c[3] == '1' && c[4] == '0'
    && c[5] == '1' && c[6] == '0' && c[7] == '0'
  }

  lemma CepLayoutExample(c: string)
    requires CepCharacters(c)
    ensures MaskCEP(c) == "01310-100"
  {
    forall i | 0 <= i < 8
      ensures IsDigit(c[i])
    {
    }
    DigitsOfDigits(c);
    assert c[..5] == "01310";
    assert c[5..8] == "100";
  }

  lemma MaskCEPExample(s: string)
    requires s == "01310100"
    ensures MaskCEP(s) == "01310-100"
  {
    assert CepCharacters(s);
    CepLayoutExample(s);
  }

  /** The characters of 11222333000181, position by position. */
  predicate CnpjCharacters(c: string) {
    |c| == 14
    && c[0] == '1' && c[1] == '1' && c[2] == '2' && c[3] == '2' && c[4] == '2'
    && c[5] == '3' && c[6] == '3' && c[7] == '3' && c[8] == '0' && c[9] == '0'
    && c[10] == '0' && c[11] == '1' && c[12] == '8' && c[13] == '1'
  }

  lemma CnpjCharactersAreDigits(c: string)
    requires CnpjCharacters(c)
    ensures AllDigits(c)
  {
    forall i | 0 <= i < |c|
      ensures IsDigit(c[i])
    {
      assert i < 14;
    }
  }

  lemma CnpjLayoutExample(c: string)
    requires CnpjCharacters(c)
    ensures MaskCNPJ(c) == "11.222.333/0001-81"
  {
    CnpjCharactersAreDigits(c);
    DigitsOfDigits(c);
    assert c[..2] == "11";
    assert c[2..5] == "222";
    assert c[5..8] == "333";
    assert c[8..12] == "0001";
    assert c[12..14] == "81";
  }

  lemma MaskCNPJExample(s: string)
    requires s == "11222333000181"
    ensures MaskCNPJ(s) == "11.222.333/0001-81"
  {
    assert CnpjCharacters(s);
    CnpjLayoutExample(s);
  }
}

=== FILE: formatters.dfy ===
/**
 * Input masks for the Brazilian company tax identifier (CNPJ), phone
 * numbers and postal codes (CEP). Every mask first strips the input to its
 * ASCII digits and then lays those digits out by how many there are.
 */
module Formatters {
  import opened Seqs
  import opened Text

  /**
   * `s.slice(a, b)` for non-negative a and b: both ends clamp to |s|, and a
   * start at or past the end gives the empty string.
   */
  function Slice(s: string, a: nat, b: nat): (r: string)
    ensures |r| == if a < b && a < |s| then (if b <= |s| then b else |s|) - a else 0
    ensures forall i :: 0 <= i < |r| ==> a + i < |s| && r[i] == s[a + i]
  {
    var lo := if a <= |s| then a else |s|;
    var hi := if b <= |s| then b else |s|;
    if lo <= hi then s[lo..hi] else []
  }

  /** `s.slice(a)` for non-negative a: everything from a on, empty past the end. */
  function SliceFrom(s: string, a: nat): (r: string)
    ensures |r| == if a <= |s| then |s| - a else 0
    ensures forall i :: 0 <= i < |r| ==> r[i] == s[a + i]
  {
    if a <= |s| then s[a..] else []
  }

  /** An end past the string clamps: the slice runs to the end, as `slice` with no end does. */
  lemma SliceClampsEnd(s: string, a: nat, b: nat)
    requires |s| <= b
    ensures Slice(s, a, b) == SliceFrom(s, a)
  {
  }

  // ---------------------------------------------------------------- CNPJ

  /** The tiers of `maskCNPJ`, applied to the already stripped digits c. */
  function CnpjLayout(c: string): string {
    if |c| <= 2 then c
    else if |c| <= 5 then Slice(c, 0, 2) + "." + SliceFrom(c, 2)
    else if |c| <= 8 then Slice(c, 0, 2) + "." + Slice(c, 2, 5) + "." + SliceFrom(c, 5)
    else if |c| <= 12 then
      Slice(c, 0, 2) + "." + Slice(c, 2, 5) + "." + Slice(c, 5, 8) + "/" + SliceFrom(c, 8)
    else
      Slice(c, 0, 2) + "." + Slice(c, 2, 5) + "." + Slice(c, 5, 8) + "/" + Slice(c, 8, 12)
      + "-" + Slice(c, 12, 14)
  }

  /** maskCNPJ: the display form `DD.DDD.DDD/DDDD-DD`, as far as the digits reach. */
  function MaskCNPJ(s: string): (r: string)
    ensures |r| <= 18
    ensures |Digits(s)| <= 2 ==> r == Digits(s)
    ensures |Digits(s)| >= 14 ==>
      |r| == 18 && r[2] == '.' && r[6] == '.' && r[10] == '/' && r[15] == '-'
  {
    CnpjLayout(Digits(s))
  }

  /** unmaskCNPJ: only the digits of s, in order and with their multiplicity. */
  function UnmaskCNPJ(s: string): (r: string)
    ensures AllDigits(r)
    ensures IsSubsequence(r, s)
    ensures forall ch :: multiset(r)[ch] == if IsDigit(ch) then multiset(s)[ch] else 0
  {
    DigitsAreDigits(s);
    FilterIsSubsequence(IsDigit, s);
    FilterCount(IsDigit, s);
    Digits(s)
  }

  /** formatCNPJ delegates to maskCNPJ, so it keeps the first 14 digits. */
  function FormatCNPJ(s: string): (r: string)
    ensures r == MaskCNPJ(s)
  {
    MaskCNPJ(s)
  }

  // --------------------------------------------------------------- phone

  /** The tiers of `maskPhone`, applied to the stripped digits c. */
  function PhoneLayout(c: string): string {
    if |c| <= 2 then c
    else if |c| <= 6 then "(" + Slice(c, 0, 2) + ") " + SliceFrom(c, 2)
    else if |c| <= 10 then "(" + Slice(c, 0, 2) + ") " + Slice(c, 2, 6) + "-" + SliceFrom(c, 6)
    else "(" + Slice(c, 0, 2) + ") " + Slice(c, 2, 7) + "-" + Slice(c, 7, 11)
  }

  /**
   * maskPhone: area code in parentheses, then a landline split 4+rest up to
   * 10 digits and a mobile split 5+4 from 11 digits on.
   */
  function MaskPhone(s: string): (r: string)
    ensures |r| <= 15
    ensures |Digits(s)| <= 2 ==> r == Digits(s)
    ensures 2 < |Digits(s)| <= 6 ==> |r| == |Digits(s)| + 3
    ensures 6 < |Digits(s)| <= 10 ==> |r| == |Digits(s)| + 4 && r[9] == '-'
    ensures 10 < |Digits(s)| ==> |r| == 15 && r[10] == '-'
    ensures 2 < |Digits(s)| ==> r[0] == '(' && r[3] == ')' && r[4] == ' '
  {
    PhoneLayout(Digits(s))
  }

  /** formatPhone delegates to maskPhone. */
  function FormatPhone(s: string): (r: string)
    ensures r == MaskPhone(s)
  {
    MaskPhone(s)
  }

  // ----------------------------------------------------------------- CEP

  /** The tiers of `maskCEP`, applied to the stripped digits c. */
  function CepLayout(c: string): string {
    if |c| <= 5 then c else Slice(c, 0, 5) + "-" + Slice(c, 5, 8)
  }

  /** maskCEP: `DDDDD-DDD` once a sixth digit arrives. */
  function MaskCEP(s: string): (r: string)
    ensures |r| <= 9
    ensures |Digits(s)| <= 5 ==> r == Digits(s)
    ensures 5 < |Digits(s)| ==> |r| == (if |Digits(s)| < 8 then |Digits(s)| else 8) + 1 && r[5] == '-'
  {
    CepLayout(Digits(s))
  }

  /** formatCEP delegates to maskCEP. */
  function FormatCEP(s: string): (r: string)
    ensures r == MaskCEP(s)
  {
    MaskCEP(s)
  }

}

=== FILE: navbar.dfy ===
/**
 * The avatar initials in the navigation bar: the first letters of the words
 * of the profile name, upper-cased, at most two of them.
 */
module Navbar {
  import opened Wrappers
  import opened Seqs
  import opened Text

  /** The part of the signed-in user's profile the navigation bar reads. */
  datatype Profile = Profile(nome: Option<string>)

  /** The initials shown when there is no name to take them from. */
  const Fallback: string := "U"

  /**
   * `s.split(" ")`: the pieces between single spaces, so a run of k spaces
   * leaves k - 1 empty pieces, and a leading or trailing space an empty
   * piece at that end.
   */
  function Split(s: string): (r: seq<string>)
    ensures |r| >= 1
    decreases |s|
  {
    if |s| == 0 then [""]
    else
      var rest := Split(s[1..]);
      if s[0] == ' ' then [""] + rest
      else [[s[0]] + rest[0]] + rest[1..]
  }

  /** There is one more piece than there are spaces. */
  lemma {:induction false} SplitCount(s: string)
    ensures |Split(s)| == multiset(s)[' '] + 1
    decreases |s|
  {
    if |s| > 0 {
      SplitCount(s[1..]);
      assert s == [s[0]] + s[1..];
    }
  }

  /** `parts.join(" ")`. */
  function JoinWithSpaces(parts: seq<string>): string
    requires |parts| >= 1
    decreases |parts|
  {
    if |parts| == 1 then parts[0] else parts[0] + " " + JoinWithSpaces(parts[1..])
  }

  /** No piece of the split contains the separator, and joining them gives s back. */
  lemma {:induction false} SplitJoin(s: string)
    ensures forall k :: 0 <= k < |Split(s)| ==> ' ' !in Split(s)[k]
    ensures JoinWithSpaces(Split(s)) == s
    decreases |s|
  {
    if |s| > 0 {
      var rest := Split(s[1..]);
      SplitJoin(s[1..]);
      if s[0] == ' ' {
        assert Split(s)[1..] == rest;
        assert JoinWithSpaces(Split(s)) == "" + " " + JoinWithSpaces(rest);
        assert s == [' '] + s[1..];
      } else {
        var first := [s[0]] + rest[0];
        assert Split(s)[1..] == rest[1..];
        assert ' ' !in first;
        if |rest| == 1 {
          assert JoinWithSpaces(Split(s)) == first;
        } else {
          var tail := JoinWithSpaces(rest[1..]);
          assert JoinWithSpaces(rest) == rest[0] + " " + tail;
          assert JoinWithSpaces(Split(s)) == first + " " + tail;
        }
        assert s == [s[0]] + s[1..];
      }
    }
  }

  /**
   * `.map(n => n[0]).join("")`: the first character of every piece; an empty
   * piece yields `undefined`, which `join` writes as nothing.
   */
  function FirstChars(parts: seq<string>): (r: string)
    ensures |r| <= |parts|
    ensures (forall k :: 0 <= k < |parts| ==> |parts[k]| > 0) ==>
              |r| == |parts| && forall k :: 0 <= k < |r| ==> r[k] == parts[k][0]
    ensures (forall k :: 0 <= k < |parts| ==> |parts[k]| == 0) ==> r == []
    decreases |parts|
  {
    if |parts| == 0 then [] else Take(parts[0], 1) + FirstChars(parts[1..])
  }

  /**
   * Reference definition: the characters of s that start a word, that is,
   * that are not a space and follow a space or the start of the name.
   * atStart says whether the character before s[0] was a space or absent.
   */
  function WordStarts(s: string, atStart: bool): string
    decreases |s|
  {
    if |s| == 0 then []
    else if s[0] == ' ' then WordStarts(s[1..], true)
    else if atStart then [s[0]] + WordStarts(s[1..], false)
    else WordStarts(s[1..], false)
  }

  /** Every character WordStarts picks is a non-space character of s. */
  lemma {:induction false} WordStartsAreNonSpace(s: string, atStart: bool)
    ensures |WordStarts(s, atStart)| <= |s|
    ensures forall k :: 0 <= k < |WordStarts(s, atStart)| ==> WordStarts(s, atStart)[k] != ' '
    decreases |s|
  {
    if |s| > 0 {
      WordStartsAreNonSpace(s[1..], true);
      WordStartsAreNonSpace(s[1..], false);
    }
  }

  /** Taking the first character of every piece of the split picks exactly the word starts. */
  lemma {:induction false} FirstCharsOfSplit(s: string)
    ensures FirstChars(Split(s)) == WordStarts(s, true)
    ensures FirstChars(Split(s)[1..]) == WordStarts(s, false)
    decreases |s|
  {
    if |s| == 0 {
      assert FirstChars(Split(s)) == Take("", 1) + FirstChars([]);
    } else {
      var rest := Split(s[1..]);
      FirstCharsOfSplit(s[1..]);
      if s[0] == ' ' {
        assert Split(s)[1..] == rest;
        assert FirstChars(Split(s)) == Take("", 1) + FirstChars(rest);
      } else {
        var first := [s[0]] + rest[0];
        assert Split(s)[1..] == rest[1..];
        assert Take(first, 1) == [s[0]];
        assert FirstChars(Split(s)) == [s[0]] + FirstChars(rest[1..]);
      }
    }
  }

  /**
   * `getInitials`: "U" without a profile or with an empty name; otherwise
   * the first letters of the space-separated pieces, upper-cased, cut to two.
   */
  function GetInitials(profile: Option<Profile>): (r: string)
    ensures |r| <= 2
    ensures forall k :: 0 <= k < |r| ==> !('a' <= r[k] <= 'z')
    ensures (profile.None? || profile.value.nome.None? || |profile.value.nome.value| == 0)
            ==> r == Fallback
  {
    if profile.None? || profile.value.nome.None? || |profile.value.nome.value| == 0 then Fallback
    else
      var up := Upper(FirstChars(Split(profile.value.nome.value)));
      Take(up, 2)
  }

  /**
   * For a non-empty name the initials are the upper-cased first letters of
   * its first two words, wherever the spaces fall.
   */
  lemma InitialsAreWordStarts(nome: string)
    requires |nome| > 0
    ensures GetInitials(Some(Profile(Some(nome)))) == Take(Upper(WordStarts(nome, true)), 2)
  {
    FirstCharsOfSplit(nome);
  }

  /** The initials never contain a space, since a word never starts with one. */
  lemma InitialsHaveNoSpace(nome: string)
    requires |nome| > 0
    ensures ' ' !in GetInitials(Some(Profile(Some(nome))))
  {
    InitialsAreWordStarts(nome);
    var w := WordStarts(nome, true);
    WordStartsAreNonSpace(nome, true);
    assert forall k :: 0 <= k < |Upper(w)| ==> Upper(w)[k] != ' ';
  }

  /** Two spaces between the words still give the two initials. */
  lemma InitialsExample(nome: string)
    requires nome == "ana  lima"
    ensures GetInitials(Some(Profile(Some(nome)))) == "AL"
  {
    InitialsAreWordStarts(nome);
    assert WordStarts(nome[9..], false) == [];
    assert WordStarts(nome[8..], false) == [];
    assert WordStarts(nome[7..], false) == [];
    assert WordStarts(nome[6..], false) == [];
    assert WordStarts(nome[5..], true) == "l";
    assert WordStarts(nome[4..], true) == "l";
    assert WordStarts(nome[3..], false) == "l";
    assert WordStarts(nome[2..], false) == "l";
    assert WordStarts(nome[1..], false) == "l";
    assert nome[0..] == nome;
  }

  /** A name of spaces only is not empty, so it gets no fallback and shows no initials. */
  lemma BlankNameExample(nome: string)
    requires nome == "  "
    ensures GetInitials(Some(Profile(Some(nome)))) == ""
  {
    InitialsAreWordStarts(nome);
    assert WordStarts(nome[2..], true) == [];
    assert WordStarts(nome[1..], true) == [];
    assert nome[0..] == nome;
  }
}

=== FILE: seqs.dfy ===
/** Sequence helpers shared by the string formatters and the list filters. */
module Seqs {

  /** The first min(n, |s|) elements of s, as `s.slice(0, n)` gives them. */
  function Take<T>(s: seq<T>, n: nat): (r: seq<T>)
    ensures |r| == if n <= |s| then n else |s|
    ensures r <= s
  {
    if n <= |s| then s[..n] else s
  }

  /** Concatenation is associative. */
  lemma AppendAssoc<T>(a: seq<T>, b: seq<T>, c: seq<T>)
    ensures (a + b) + c == a + (b + c)
  {
  }

  /** Prefixes that agree, extended by an agreeing element, still agree. */
  lemma PrefixExtend<T>(a: seq<T>, b: seq<T>, k: nat)
    requires k < |a| && k < |b| && a[..k] == b[..k] && a[k] == b[k]
    ensures a[..k + 1] == b[..k + 1]
  {
    assert a[..k + 1] == a[..k] + [a[k]];
    assert b[..k + 1] == b[..k] + [b[k]];
  }

  lemma TakeTake<T>(s: seq<T>, n: nat)
    ensures Take(Take(s, n), n) == Take(s, n)
  {
  }

  /** Taking n elements respects the prefix order. */
  lemma TakeMonotonic<T>(p: seq<T>, s: seq<T>, n: nat)
    requires p <= s
    ensures Take(p, n) <= Take(s, n)
  {
  }

  /** a can be obtained from b by deleting elements, keeping the rest in order. */
  ghost predicate IsSubsequence<T>(a: seq<T>, b: seq<T>)
    decreases |b|
  {
    if a == [] then true
    else if b == [] then false
    else (a[0] == b[0] && IsSubsequence(a[1..], b[1..])) || IsSubsequence(a, b[1..])
  }

  /**
   * Array.prototype.filter: the elements of s that satisfy p, in their
   * original order.
   */
  function Filter<T>(p: T -> bool, s: seq<T>): (r: seq<T>)
    ensures |r| <= |s|
    decreases |s|
  {
    if |s| == 0 then []
    else if p(s[0]) then [s[0]] + Filter(p, s[1..])
    else Filter(p, s[1..])
  }

  /** The filtered list is the original list with some elements deleted, order kept. */
  lemma {:induction false} FilterIsSubsequence<T>(p: T -> bool, s: seq<T>)
    ensures IsSubsequence(Filter(p, s), s)
    decreases |s|
  {
    if |s| > 0 {
      FilterIsSubsequence(p, s[1..]);
      var r := Filter(p, s);
      if p(s[0]) {
        assert r[0] == s[0] && r[1..] == Filter(p, s[1..]);
      }
    }
  }

  /**
   * Every element satisfying p occurs in the filtered list exactly as often as
   * in s; every other element does not occur at all.
   */
  lemma {:induction false} FilterCount<T(!new)>(p: T -> bool, s: seq<T>)
    ensures forall x :: multiset(Filter(p, s))[x] == if p(x) then multiset(s)[x] else 0
    decreases |s|
  {
    if |s| > 0 {
      FilterCount(p, s[1..]);
      assert s == [s[0]] + s[1..];
    }
  }

  /** Soundness and completeness of filtering: x is kept iff it is in s and satisfies p. */
  lemma FilterMembership<T(!new)>(p: T -> bool, s: seq<T>)
    ensures forall x :: x in Filter(p, s) <==> x in s && p(x)
  {
    FilterCount(p, s);
    forall x
      ensures x in Filter(p, s) <==> x in s && p(x)
    {
      assert x in Filter(p, s) <==> multiset(Filter(p, s))[x] > 0;
      assert x in s <==> multiset(s)[x] > 0;
    }
  }

  lemma {:induction false} FilterAppend<T>(p: T -> bool, a: seq<T>, b: seq<T>)
    ensures Filter(p, a + b) == Filter(p, a) + Filter(p, b)
    decreases |a|
  {
    if |a| == 0 {
      assert a + b == b;
    } else {
      assert (a + b)[0] == a[0];
      assert (a + b)[1..] == a[1..] + b;
      FilterAppend(p, a[1..], b);
    }
  }

  /** Filtering keeps everything when every element satisfies the predicate. */
  lemma {:induction false} FilterKeepsAll<T>(p: T -> bool, s: seq<T>)
    requires forall i :: 0 <= i < |s| ==> p(s[i])
    ensures Filter(p, s) == s
    decreases |s|
  {
    if |s| > 0 {
      FilterKeepsAll(p, s[1..]);
    }
  }

  /** Filtering twice with the same predicate is filtering once. */
  lemma {:induction false} FilterIdempotent<T>(p: T -> bool, s: seq<T>)
    ensures Filter(p, Filter(p, s)) == Filter(p, s)
    decreases |s|
  {
    if |s| > 0 {
      FilterIdempotent(p, s[1..]);
      if p(s[0]) {
        var t := Filter(p, s[1..]);
        assert ([s[0]] + t)[0] == s[0];
        assert ([s[0]] + t)[1..] == t;
      }
    }
  }
}

=== FILE: text.dfy ===
/** Character-level string operations the application relies on. */
module Text {
  import opened Seqs

  /** `\d` in a JavaScript regular expression: the ASCII digits 0-9. */
  predicate IsDigit(c: char) {
    '0' <= c <= '9'
  }

  predicate AllDigits(s: string) {
    forall i :: 0 <= i < |s| ==> IsDigit(s[i])
  }

  predicate NoDigits(s: string) {
    forall i :: 0 <= i < |s| ==> !IsDigit(s[i])
  }

  /** `s.replace(/\D/g, '')`: the ASCII digits of s, in order. */
  function Digits(s: string): string {
    Filter(IsDigit, s)
  }

  lemma DigitsAreDigits(s: string)
    ensures AllDigits(Digits(s))
  {
    var r := Digits(s);
    FilterMembership(IsDigit, s);
    forall i | 0 <= i < |r|
      ensures IsDigit(r[i])
    {
      assert r[i] in r;
    }
  }

  lemma DigitsAppend(a: string, b: string)
    ensures Digits(a + b) == Digits(a) + Digits(b)
  {
    FilterAppend(IsDigit, a, b);
  }

  lemma DigitsOfDigits(s: string)
    requires AllDigits(s)
    ensures Digits(s) == s
  {
    FilterKeepsAll(IsDigit, s);
  }

  lemma {:induction false} DigitsOfSeparator(s: string)
    requires NoDigits(s)
    ensures Digits(s) == []
    decreases |s|
  {
    if s != [] {
      DigitsOfSeparator(s[1..]);
    }
  }

  lemma DigitsIdempotent(s: string)
    ensures Digits(Digits(s)) == Digits(s)
  {
    FilterIdempotent(IsDigit, s);
  }

  /** The digits of a prefix are a prefix of the digits. */
  lemma DigitsOfPrefix(s: string, k: nat)
    requires k <= |s|
    ensures Digits(s[..k]) <= Digits(s)
  {
    assert s == s[..k] + s[k..];
    DigitsAppend(s[..k], s[k..]);
  }

  /** `toLowerCase` restricted to ASCII letters. */
  function LowerChar(c: char): char {
    if 'A' <= c <= 'Z' then (c as int + 32) as char else c
  }

  /** `toUpperCase` restricted to ASCII letters. */
  function UpperChar(c: char): char {
    if 'a' <= c <= 'z' then (c as int - 32) as char else c
  }

  /**
   * `toLowerCase` on ASCII: upper-case letters become the lower-case letter
   * that upper-cases back to them, and every other character is kept.
   */
  function Lower(s: string): (r: string)
    ensures |r| == |s|
    ensures forall i :: 0 <= i < |r| ==> !('A' <= r[i] <= 'Z')
    ensures forall i :: 0 <= i < |s| && 'A' <= s[i] <= 'Z' ==> 'a' <= r[i] <= 'z' && UpperChar(r[i]) == s[i]
    ensures forall i :: 0 <= i < |s| && !('A' <= s[i] <= 'Z') ==> r[i] == s[i]
  {
    seq(|s|, i requires 0 <= i < |s| => LowerChar(s[i]))
  }

  /**
   * `toUpperCase` on ASCII: lower-case letters become the upper-case letter
   * that lower-cases back to them, and every other character is kept.
   */
  function Upper(s: string): (r: string)
    ensures |r| == |s|
    ensures forall i :: 0 <= i < |r| ==> !('a' <= r[i] <= 'z')
    ensures forall i :: 0 <= i < |s| && 'a' <= s[i] <= 'z' ==> 'A' <= r[i] <= 'Z' && LowerChar(r[i]) == s[i]
    ensures forall i :: 0 <= i < |s| && !('a' <= s[i] <= 'z') ==> r[i] == s[i]
  {
    seq(|s|, i requires 0 <= i < |s| => UpperChar(s[i]))
  }

  /** Lower-casing forgets the case a string was written in. */
  lemma LowerOfUpper(s: string)
    ensures Lower(Upper(s)) == Lower(s)
  {
  }

  /** Two strings that agree letter by letter once ASCII case is ignored. */
  predicate SameIgnoringCase(a: string, b: string) {
    |a| == |b| && forall i :: 0 <= i < |a| ==> LowerChar(a[i]) == LowerChar(b[i])
  }

  lemma LowerEqualIff(a: string, b: string)
    ensures Lower(a) == Lower(b) <==> SameIgnoringCase(a, b)
  {
    if SameIgnoringCase(a, b) {
      assert forall i :: 0 <= i < |a| ==> Lower(a)[i] == Lower(b)[i];
    }
    if Lower(a) == Lower(b) {
      assert forall i :: 0 <= i < |a| ==> Lower(a)[i] == LowerChar(a[i]);
    }
  }

  /** `h.includes(n)`: the search JavaScript performs, start by start. */
  function Includes(h: string, n: string): (r: bool)
    ensures |n| == 0 ==> r
    ensures n <= h ==> r
    ensures r ==> |n| <= |h|
    decreases |h|
  {
    n <= h || (h != [] && Includes(h[1..], n))
  }

  /** n occurs in h starting at index i. */
  predicate OccursAt(h: string, n: string, i: int) {
    0 <= i && i + |n| <= |h| && h[i..i + |n|] == n
  }

  /** n occurs in h starting at index i, ignoring ASCII case. */
  predicate OccursAtIgnoringCase(h: string, n: string, i: int) {
    0 <= i && i + |n| <= |h| && SameIgnoringCase(h[i..i + |n|], n)
  }

  /** `includes` finds n exactly when n occurs somewhere in h. */
  lemma {:induction false} IncludesIffOccurs(h: string, n: string)
    ensures Includes(h, n) <==> exists i :: OccursAt(h, n, i)
    decreases |h|
  {
    if h == [] {
      if n == [] {
        assert OccursAt(h, n, 0);
      }
    } else {
      IncludesIffOccurs(h[1..], n);
      if n <= h {
        assert OccursAt(h, n, 0);
      } else if Includes(h[1..], n) {
        var j :| OccursAt(h[1..], n, j);
        assert h[1..][j..j + |n|] == h[j + 1..j + 1 + |n|];
        assert OccursAt(h, n, j + 1);
      }
      if exists i :: OccursAt(h, n, i) {
        var i :| OccursAt(h, n, i);
        if i == 0 {
          assert n <= h;
        } else {
          assert h[1..][i - 1..i - 1 + |n|] == h[i..i + |n|];
          assert OccursAt(h[1..], n, i - 1);
        }
      }
    }
  }

  /** Lower-casing both sides turns `includes` into a case-insensitive search. */
  lemma IncludesLowerIff(h: string, n: string)
    ensures Includes(Lower(h), Lower(n)) <==> exists i :: OccursAtIgnoringCase(h, n, i)
  {
    IncludesIffOccurs(Lower(h), Lower(n));
    forall i | 0 <= i && i + |n| <= |h|
      ensures OccursAt(Lower(h), Lower(n), i) <==> OccursAtIgnoringCase(h, n, i)
    {
      assert Lower(h)[i..i + |n|] == Lower(h[i..i + |n|]);
      LowerEqualIff(h[i..i + |n|], n);
    }
    if exists i :: OccursAt(Lower(h), Lower(n), i) {
      var i :| OccursAt(Lower(h), Lower(n), i);
      assert OccursAtIgnoringCase(h, n, i);
    }
    if exists i :: OccursAtIgnoringCase(h, n, i) {
      var i :| OccursAtIgnoringCase(h, n, i);
      assert OccursAt(Lower(h), Lower(n), i);
    }
  }
}

=== FILE: wrappers.dfy ===
/** Optional values: JavaScript's `undefined`/`null` next to a present value. */
module Wrappers {

  datatype Option<+T> = None | Some(value: T)
}
